=== FILE: README.md ===
# Sick Fits resolvers: a Dafny model of the authorization and checkout core

This project models the GraphQL resolvers of the Sick Fits shop backend
(`src/resolvers/Mutation.js` and `src/resolvers/Query.js`). It covers account
creation and sign-in, the password-reset token lifecycle, permission updates,
the item-deletion guard, the cart mutations, the `createOrder` checkout, and the
read rules of `me`, `users`, `order` and `orders`.

Each resolver is a pure function. It takes the store (users, items, cart lines
and orders, each a map from id to record, plus the next id to allocate), the
request context and the collaborators' answers. It returns either an error or a
`Reply`: the new store, the value sent to the client, and the side effects
(session cookie set or cleared, reset mail sent, card charged).

An error carries no store: every error the model represents is raised before
the resolver's first write. Two failures the code can raise after a write are
not modelled; they are listed under "Left out".

Files:
- `base.dfy`: ids, `Option`, `Result` and the error taxonomy.
- `schema.dfy`: the records, the store, the request context, and the effects.
  It also holds the two filter queries the resolvers issue: `FindKey` (first
  matching record) and `SelectKeys` (all matching records, ascending id). Last,
  it defines the store invariant `ValidStore`.
- `guards.dfy`: `hasPermission` and the inline guards of `deleteItem` and `order`.
- `items.dfy`: `deleteItem`.
- `credentials.dfy` and `credential_properties.dfy`: signup, signin, signout,
  requestReset, resetPassword, updatePermissions, and the lemmas that relate them.
- `cart.dfy`: addToCart and removeFromCart, with their lemmas.
- `checkout.dfy` and `checkout_properties.dfy`: createOrder and its lemmas.
- `queries.dfy`: me, users, order, orders.

## Modelling decisions

- Records carry no id field. The key under which a record is stored is its id,
  and resolvers that return a record return an `(id, record)` pair. The order
  lines of an order are a copy of item fields and have no item id.
- New records get `nextId`, which is then incremented. `ValidStore` says:
  - every id is below `nextId`;
  - emails are unique;
  - at most one cart line exists per (user, item) pair;
  - every quantity is positive.

  Under `ValidStore` the filter queries see every record.
- Collaborators are parameters:
  - password hashing is `hash: string -> string`;
  - password comparison is `matches: (string, string) -> bool`;
  - the random reset token is a `string`;
  - the clock is `now`, in milliseconds;
  - the payment processor is `pay: ChargeRequest -> Payment`, which either
    declines or reports a charge id and the captured amount.

  The session token is the constructor `Jwt(userId)`.
- `hasPermission` lives in a utils module that is not part of this model. Its
  two call sites ignore its return value, so it must throw to have any effect.
  It is therefore modelled as failing with `NoPermission` unless the user's
  permissions intersect the required list. This is an assumption.
- A record that the code dereferences without checking it raises an error in
  the model. Such an error arises for:
  - a missing item in deleteItem;
  - an absent `ctx.request.user` in deleteItem, users and order;
  - a missing current user in updatePermissions and createOrder;
  - a missing user or item in addToCart, whose relation links fail;
  - a missing order in the order query;
  - a cart line whose item was deleted, in createOrder.
- Two guards are modelled as the code is written:
  - The `deleteItem` guard throws only for a non-owner who holds ADMIN or
    ITEMDELETE. A non-owner with neither permission passes, and so does an
    owner.
  - The `order` guard tests `!hasPermission`. That name is the imported helper
    function, which is always truthy, so the local flag is never used. The
    guard therefore admits the owner only: an ADMIN cannot read another
    user's order.

  The intended policies (owner OR permission holder) are stated separately
  (`MayDeleteItem`, `MaySeeOrder`). Lemmas compare the two.
- `signup` fails with `EmailTaken` when the lower-cased email is already
  registered. The code does not check this itself: the email is a unique field
  of the data model, whose file is not part of this model, so the database
  refuses the second record.
- `signin` and `requestReset` look the email up exactly as given. Only
  `signup` lower-cases it.

## Where the intended behaviour and the code differ (the model follows the code)

- The owner-or-permission policy lets an item be deleted by its owner or by a
  holder of ADMIN or ITEMDELETE. The code does the reverse for non-owners
  (`DeleteItemGuardInverted`).
- The owner-or-ADMIN policy lets an ADMIN read any order, as the unused local
  flag in the `order` resolver shows. The code admits only the owner
  (`OrderGuardIsOwnership`, `OrderQueryIsOwnerOnly`).
- Sign-in raises two distinct errors, one for an unknown email and one for a
  wrong password, so a caller can tell which emails are registered. The model
  keeps them apart as `NoSuchUser` and `InvalidPassword`.
- `deleteItem` has no logged-in check of its own. An anonymous request fails
  only because it reads the permissions of an absent user record.

## Model

| member | source | states |
|---|---|---|
| Schema.FindKey | src/resolvers/Mutation.js:193-198 | a filter query returns a key whose record matches; no smaller key matches; None only when no record with an allocated id matches |
| Schema.SelectKeys | src/resolvers/Query.js:50-54 | a list query returns exactly the matching allocated keys, strictly ascending |
| Guards.HasPermission | src/resolvers/Mutation.js:173 | succeeds iff some held permission is one of the required ones; otherwise fails with NoPermission |
| Guards.DeleteItemGuard | src/resolvers/Mutation.js:46-50 | as written: fails iff the caller is not the owner and holds ADMIN or ITEMDELETE |
| Guards.DeleteItemGuardAdmits | src/resolvers/Mutation.js:46-50 | an owner always passes; a non-owner holding neither ADMIN nor ITEMDELETE also passes |
| Guards.DeleteItemGuardInverted | src/resolvers/Mutation.js:46-50 | for owners the guard agrees with the intended owner-or-permission policy; for every non-owner its verdict is the opposite |
| Guards.OrderGuard | src/resolvers/Query.js:36-40 | as written: fails iff the caller does not own the order, whatever the ADMIN flag |
| Guards.OrderGuardIsOwnership | src/resolvers/Query.js:36-40 | the ADMIN flag never changes the verdict; the owner is admitted; a non-owner ADMIN is rejected although the intended policy admits them |
| Items.DeleteItem | src/resolvers/Mutation.js:41-54 | missing item gives NotFound; absent request user gives MissingUser; otherwise fails iff non-owner with ADMIN/ITEMDELETE; on success exactly that item is removed and nothing else changes |
| Items.OwnerDeletesItem | src/resolvers/Mutation.js:44-52 | the owner of an existing item always deletes it |
| Items.StrangerDeletesItem | src/resolvers/Mutation.js:46-52 | a non-owner with no permissions deletes another user's item; a non-owner ADMIN is refused |
| Credentials.ToLower | src/resolvers/Mutation.js:57 | the result has the same length and no upper-case letter; other characters are kept; each upper-case letter maps to its lower-case one |
| Credentials.ToLowerIdempotent | src/resolvers/Mutation.js:57 | lower-casing leaves lower-case strings unchanged, so it is idempotent |
| Credentials.Signup | src/resolvers/Mutation.js:56-76 | fails with EmailTaken iff the lower-cased email is already registered; otherwise stores one new user under a fresh id with the lower-cased email, the hashed password, permissions exactly [USER] and no reset token; changes nothing else; sets the 365-day session cookie for the new id |
| Credentials.Signin | src/resolvers/Mutation.js:78-97 | an unknown email gives NoSuchUser (iff); the only errors are NoSuchUser and InvalidPassword; success means the password matches the stored digest; success leaves the store unchanged and only then sets the session cookie |
| Credentials.Signout | src/resolvers/Mutation.js:99-102 | clears the session cookie and leaves the store unchanged |
| Credentials.SignoutIdempotent | src/resolvers/Mutation.js:99-102 | signing out twice has the same outcome as signing out once |
| Credentials.RequestReset | src/resolvers/Mutation.js:104-126 | fails with NoSuchUser iff no user has the email, with no store change; otherwise changes only that user's token and sets expiry = now + 3600000; mails the token to that address |
| Credentials.ResetPassword | src/resolvers/Mutation.js:128-164 | a password/confirm mismatch fails before any lookup; otherwise fails iff no user's token matches with expiry >= now - 3600000; on success only that user changes: new hash, token and expiry cleared; sets the session cookie |
| Credentials.UpdatePermissions | src/resolvers/Mutation.js:166-184 | anonymous gives NotLoggedIn; a missing actor gives MissingUser; an actor without ADMIN/PERMISSIONUPDATE gives NoPermission; a missing target gives NotFound; succeeds iff a logged-in, existing actor holding ADMIN or PERMISSIONUPDATE names an existing target; on success the target's permissions equal the argument exactly, every other field and user is unchanged |
| CredentialProperties.SignupPreservesValidStore | src/resolvers/Mutation.js:56-66 | signup keeps ids allocated and emails unique |
| CredentialProperties.SignupThenSignin | src/resolvers/Mutation.js:56-97 | after signup, signin with the lower-cased email and the same password returns the new account and its cookie, given the hash matches its own input |
| CredentialProperties.SigninRejectsWrongPassword | src/resolvers/Mutation.js:80-88 | a registered email with a non-matching password fails with InvalidPassword and issues no token |
| CredentialProperties.UpdatePermissionsPreservesValidStore | src/resolvers/Mutation.js:173-183 | updating permissions keeps the store valid |
| CredentialProperties.GrantedUpdaterCanUpdate | src/resolvers/Mutation.js:173-183 | a user granted PERMISSIONUPDATE can afterwards set any existing user's permissions |
| CredentialProperties.UpdatePermissionsReplaces | src/resolvers/Mutation.js:174-183 | the list is replaced, not merged: repeating an update changes nothing, and a later update erases the earlier one |
| CredentialProperties.RequestResetPreservesValidStore | src/resolvers/Mutation.js:104-117 | requestReset keeps the store valid |
| CredentialProperties.ResetPasswordPreservesValidStore | src/resolvers/Mutation.js:128-154 | resetPassword keeps the store valid |
| CredentialProperties.ResetAcceptedWithinTwoHours | src/resolvers/Mutation.js:111-143 | a freshly issued token is accepted iff the reset happens at most 7200000 ms after issue |
| CredentialProperties.ResetTokenSingleUse | src/resolvers/Mutation.js:135-154 | after a successful reset the same token is rejected, whatever the passwords or the time |
| Cart.AddToCart | src/resolvers/Mutation.js:186-218 | anonymous gives NotLoggedIn; for a logged-in caller succeeds iff both the user and the item exist (MissingUser, else NotFound, since the relation filter and the links need both); an existing (user, item) line gets quantity old + 1 and nothing else changes; otherwise a new line with quantity 1 under a fresh id |
| Cart.AddToCartPreservesValidStore | src/resolvers/Mutation.js:193-217 | addToCart keeps at most one line per (user, item) and positive quantities |
| Cart.AddToCartIncrementsExistingLine | src/resolvers/Mutation.js:193-206 | in a valid store, for an existing user and item, the existing line for (user, item) is the one incremented, by exactly one, and no other line changes |
| Cart.AddToCartTwice | src/resolvers/Mutation.js:186-218 | adding an absent item twice yields a single line with quantity 2 |
| Cart.RemoveFromCart | src/resolvers/Mutation.js:220-236 | a missing line gives NoCartItem (iff); a line of another user gives NotYourItem; success iff the caller owns the line; exactly that line is removed and all others are untouched |
| Cart.RemoveFromCartPreservesValidStore | src/resolvers/Mutation.js:220-236 | removeFromCart keeps the store valid |
| Cart.RemoveUndoesFirstAdd | src/resolvers/Mutation.js:207-236 | removing the line a first addToCart created restores the cart exactly |
| Checkout.Snapshot | src/resolvers/Mutation.js:242-255 | lists exactly the caller's allocated cart lines, ascending, each with its quantity and current item; fails iff one of them refers to a deleted item |
| Checkout.CreateOrder | src/resolvers/Mutation.js:238-292 | anonymous gives NotLoggedIn; a missing user gives MissingUser; a line with a deleted item gives MissingItem; a declined charge fails before any write; succeeds iff the caller exists, every cart line's item exists and the charge is captured; on success the charge request is for the summed price in USD; the order total is the captured amount and its charge is the charge id; one order line per snapshot line, in order, copying the item fields and quantity; the snapshotted lines are gone, the other lines untouched, users and items unchanged |
| CheckoutProperties.OrderLinesTotalIsPrice | src/resolvers/Mutation.js:254-273 | the order lines' price x quantity sum equals the amount computed for the cart lines they copy |
| CheckoutProperties.OrderLinesSumToChargedAmount | src/resolvers/Mutation.js:254-282 | the amount sent to the processor is the price x quantity sum over the recorded order's lines; the order total equals that sum iff the processor captured the amount requested |
| CheckoutProperties.CreateOrderEmptiesCart | src/resolvers/Mutation.js:284-289 | after a checkout from a valid store the caller has no cart line left and the store stays valid |
| CheckoutProperties.PriceExample | src/resolvers/Mutation.js:254-255 | two at 500 plus one at 300 price to 1300 |
| Queries.Me | src/resolvers/Query.js:8-16 | never fails and never writes; None for an anonymous request; otherwise the caller's record if it exists |
| Queries.MeAfterSignup | src/resolvers/Query.js:8-16 | after signup, `me` asked with the id in the new session cookie returns exactly the stored new account |
| Queries.Users | src/resolvers/Query.js:17-25 | anonymous gives NotLoggedIn; an absent request user gives MissingUser; succeeds iff the caller holds ADMIN or PERMISSIONUPDATE, and then lists every stored user, each once, in ascending id order |
| Queries.OrderQuery | src/resolvers/Query.js:27-43 | anonymous gives NotLoggedIn; a missing order gives NotFound; an absent request user gives MissingUser; otherwise succeeds iff the caller owns the order |
| Queries.OrderQueryIsOwnerOnly | src/resolvers/Query.js:36-40 | the owner reads their order; a non-owner ADMIN is rejected |
| Queries.Orders | src/resolvers/Query.js:45-55 | fails, with NotLoggedIn, iff anonymous, so a logged-in caller always gets an answer; every returned order belongs to the caller; every order of the caller is returned, each once, in ascending id order |

## Left out

- Request middleware (`src/index.js`): cookie parsing, JWT verification, the
  per-request user lookup, CORS and server start. Its output is the `Request`
  given to each resolver.
- bcrypt: hashing is the `hash` parameter and comparison the `matches`
  parameter. The cost factor 10 is not modelled.
- `jwt.sign` and the signing secret: a token is the constructor `Jwt(userId)`.
- Randomness: the 20 random bytes behind the reset token, and their hex
  encoding, are the `resetToken` parameter. `Date.now` is the `now` parameter.
- The payment processor: it is the `pay` parameter. Its ledger, retries and
  network failures are out of scope.
- Mail transport and the HTML of the reset mail. The mail is the
  `SendResetMail(to, token)` effect; the frontend link is not modelled.
- Cookie options other than the 365-day max age, such as httpOnly, and the
  `signout` message text.
- `console.log`.
- Pass-through resolvers:
  - `items`, `item` and `itemsConnection` forward to the database;
  - `createItem` adds the owner and forwards;
  - `updateItem` only drops `id` and forwards.
- Prisma mechanics: field selection (`info`) and relation cascades. Deleting an
  item leaves cart lines that refer to it; addToCart's relation filter no
  longer matches them, and createOrder fails on them.
- Database failures in the middle of a resolver. This includes the gap between
  a captured charge and a failed order write in createOrder.
- A failed reset mail: requestReset sends the mail after it has stored the
  token, so a transport failure throws with the token already written. The
  model treats the mail as an effect that always happens.
- Async scheduling and concurrent requests. Each resolver runs alone, so the
  race that deleting only the snapshotted cart lines guards against does not
  arise in the model.
- JavaScript numbers. Prices, quantities and timestamps are unbounded integers,
  with no floating-point rounding.
- The data model's default cart quantity. It is taken to be 1, because the
  create path sets no quantity.
- Credentials.ToLower: lower-cases only the ASCII letters A-Z. JavaScript's
  `toLowerCase` also maps other Unicode upper-case letters.
- Credentials.ResetPassword: updates the found account by its id. The code
  addresses it again through its email, which is the same account because
  emails are unique.
- Credentials.RequestReset: the lookup and the update both go through the email
  and are modelled as one lookup. With unique emails they reach the same account.

=== FILE: base.dfy ===
/** Identifiers, optional values and the error results every resolver can raise. */
module Base {

  /** Record identifiers. The store allocates them from a counter, so they are naturals. */
  type Id = nat

  datatype Option<T> = None | Some(value: T)

  /** One constructor per way a resolver throws. A null dereference in the
      resolver (a record it reads without checking) is a throw as well, and gets
      its own constructor so that the error paths stay distinguishable. */
  datatype Error =
    | NotLoggedIn            // "You must be logged in / signed in" guards
    | MissingUser            // the resolver dereferences a user record that is absent
    | NoPermission           // hasPermission, or the deleteItem guard
    | NotFound               // the addressed item, order or user does not exist
    | EmailTaken             // signup with an email another user already has
    | NoSuchUser             // signin / requestReset with an unknown email
    | InvalidPassword        // signin with a wrong password
    | PasswordMismatch       // resetPassword with password != confirmPassword
    | InvalidOrExpiredToken  // resetPassword with a bad or stale reset token
    | NoCartItem             // removeFromCart of a missing cart line
    | NotYourItem            // removeFromCart of somebody else's cart line
    | CannotSeeOrder         // the order query's guard
    | MissingItem            // createOrder over a cart line whose item was deleted
    | ChargeFailed(reason: string)  // the payment processor declined

  /** Either a value or the error the resolver raised. An error carries no
      store: every error the model represents is raised before the
      resolver's first write. */
  datatype Result<T> = Ok(value: T) | Err(error: Error)
}

=== FILE: cart.dfy ===
/** The cart mutations: addToCart (upsert-increment) and removeFromCart (owner only). */
module Cart {
  import opened Base
  import opened Schema

  /** The cart-line filter addToCart queries with: this user's line for this item. */
  predicate LineFor(line: CartItem, userId: Id, itemId: Id) {
    line.user == userId && line.item == itemId
  }

  /** Some cart line of `userId` for `itemId` has an allocated id. */
  predicate HasLine(s: Store, userId: Id, itemId: Id) {
    exists j :: j in s.cart && j < s.nextId && LineFor(s.cart[j], userId, itemId)
  }

  /** A logged-in user adds an item: the existing line for (user, item), if
      any, has its quantity raised by one; otherwise a new line with quantity
      one is created, linking the user and the item. The line query filters
      through both relations, so it cannot match a line whose user or item
      record is gone; such a call reaches the create path, whose link fails.
      The model therefore fails first when either record is missing: the user
      link is listed first, so a missing user gives MissingUser and otherwise
      a missing item gives NotFound. */
  function AddToCart(s: Store, req: Request, itemId: Id): (r: Result<Reply<(Id, CartItem)>>)
    ensures req.userId.None? ==> r == Err(NotLoggedIn)
    ensures req.userId.Some? ==> (r.Ok? <==> req.userId.value in s.users && itemId in s.items)
    ensures req.userId.Some? && req.userId.value !in s.users ==> r == Err(MissingUser)
    ensures req.userId.Some? && req.userId.value in s.users && itemId !in s.items ==> r == Err(NotFound)
    ensures r.Ok? && HasLine(s, req.userId.value, itemId) ==>
      && r.value.value.0 in s.cart
      && LineFor(s.cart[r.value.value.0], req.userId.value, itemId)
      && r.value.value.1 == s.cart[r.value.value.0].(quantity := s.cart[r.value.value.0].quantity + 1)
      && r.value.store == s.(cart := s.cart[r.value.value.0 := r.value.value.1])
    ensures r.Ok? && !HasLine(s, req.userId.value, itemId) ==>
      && r.value.value == (s.nextId, CartItem(1, itemId, req.userId.value))
      && r.value.store == s.(cart := s.cart[s.nextId := r.value.value.1], nextId := s.nextId + 1)
    ensures r.Ok? ==> LineFor(r.value.value.1, req.userId.value, itemId) && r.value.effects == []
  {
    if req.userId.None? then Err(NotLoggedIn)
    else
      var userId := req.userId.value;
      if userId !in s.users then Err(MissingUser)
      else if itemId !in s.items then Err(NotFound)
      else
        match FindKey(s.cart, (line: CartItem) => LineFor(line, userId, itemId), s.nextId)
        case Some(k) =>
          var updated := s.cart[k].(quantity := s.cart[k].quantity + 1);
          Ok(Reply(s.(cart := s.cart[k := updated]), (k, updated), []))
        case None =>
          var id := s.nextId;
          var line := CartItem(1, itemId, userId);
          Ok(Reply(s.(cart := s.cart[id := line], nextId := id + 1), (id, line), []))
  }

  /** Removes one cart line; only its owner may. An anonymous caller owns nothing. */
  function RemoveFromCart(s: Store, req: Request, lineId: Id): (r: Result<Reply<(Id, CartItem)>>)
    ensures lineId !in s.cart <==> r == Err(NoCartItem)
    ensures lineId in s.cart && req.userId != Some(s.cart[lineId].user) ==> r == Err(NotYourItem)
    ensures r.Ok? <==> lineId in s.cart && req.userId == Some(s.cart[lineId].user)
    ensures r.Ok? ==>
      && r.value.value == (lineId, s.cart[lineId])
      && r.value.store.cart.Keys == s.cart.Keys - {lineId}
      && (forall j :: j in r.value.store.cart ==> r.value.store.cart[j] == s.cart[j])
      && r.value.store.(cart := s.cart) == s
      && r.value.effects == []
  {
    if lineId !in s.cart then Err(NoCartItem)
    else
      var line := s.cart[lineId];
      if req.userId != Some(line.user) then Err(NotYourItem)
      else Ok(Reply(s.(cart := s.cart - {lineId}), (lineId, line), []))
  }

  /** addToCart keeps at most one line per (user, item) pair, and every
      quantity positive. */
  lemma AddToCartPreservesValidStore(s: Store, req: Request, itemId: Id)
    requires ValidStore(s)
    requires AddToCart(s, req, itemId).Ok?
    ensures ValidStore(AddToCart(s, req, itemId).value.store)
  {
    var reply := AddToCart(s, req, itemId).value;
    var k := reply.value.0;
    var cart' := reply.store.cart;
    forall a, b | a in cart' && b in cart' && cart'[a].user == cart'[b].user && cart'[a].item == cart'[b].item
      ensures a == b
    {
      if a != b && (a == k || b == k) {
        var other := if a == k then b else a;
        assert other in s.cart && other < s.nextId && LineFor(s.cart[other], req.userId.value, itemId);
        assert false;
      }
    }
  }

  /** In a valid store, for an existing user and item, the existing line for
      (user, item) is the one updated:
      its quantity becomes exactly one more and no other line changes. */
  lemma AddToCartIncrementsExistingLine(s: Store, req: Request, itemId: Id, k: Id)
    requires ValidStore(s)
    requires req.userId.Some? && req.userId.value in s.users && itemId in s.items
    requires k in s.cart && LineFor(s.cart[k], req.userId.value, itemId)
    ensures AddToCart(s, req, itemId) ==
      Ok(Reply(s.(cart := s.cart[k := s.cart[k].(quantity := s.cart[k].quantity + 1)]),
               (k, s.cart[k].(quantity := s.cart[k].quantity + 1)), []))
  {
    var userId := req.userId.value;
    FindKeyComplete(s.cart, (line: CartItem) => LineFor(line, userId, itemId), s.nextId, k);
  }

  /** Adding the same item twice to a cart that lacks it yields one line with
      quantity two, not two lines. */
  lemma AddToCartTwice(s: Store, req: Request, itemId: Id)
    requires ValidStore(s)
    requires req.userId.Some? && req.userId.value in s.users && itemId in s.items
    requires forall j :: j in s.cart ==> !LineFor(s.cart[j], req.userId.value, itemId)
    ensures AddToCart(s, req, itemId).Ok?
    ensures var once := AddToCart(s, req, itemId).value;
            && AddToCart(once.store, req, itemId).Ok?
            && var twice := AddToCart(once.store, req, itemId).value;
               && twice.value == (s.nextId, CartItem(2, itemId, req.userId.value))
               && (forall j :: j in twice.store.cart && LineFor(twice.store.cart[j], req.userId.value, itemId) ==> j == s.nextId)
  {
    var once := AddToCart(s, req, itemId).value;
    AddToCartPreservesValidStore(s, req, itemId);
    AddToCartIncrementsExistingLine(once.store, req, itemId, s.nextId);
  }

  /** removeFromCart keeps the store valid. */
  lemma RemoveFromCartPreservesValidStore(s: Store, req: Request, lineId: Id)
    requires ValidStore(s)
    requires RemoveFromCart(s, req, lineId).Ok?
    ensures ValidStore(RemoveFromCart(s, req, lineId).value.store)
  {
  }

  /** Removing the line that the first addToCart of an item created gives
      back the cart exactly as it was before. */
  lemma RemoveUndoesFirstAdd(s: Store, req: Request, itemId: Id)
    requires ValidStore(s)
    requires req.userId.Some? && req.userId.value in s.users && itemId in s.items
    requires forall j :: j in s.cart ==> !LineFor(s.cart[j], req.userId.value, itemId)
    ensures AddToCart(s, req, itemId).Ok?
    ensures var added := AddToCart(s, req, itemId).value;
            && RemoveFromCart(added.store, req, added.value.0).Ok?
            && RemoveFromCart(added.store, req, added.value.0).value.store == added.store.(cart := s.cart)
  {
    var added := AddToCart(s, req, itemId).value;
    assert s.nextId !in s.cart;
    assert added.store.cart - {s.nextId} == s.cart;
  }
}

=== FILE: checkout.dfy ===
/** The createOrder mutation: price the caller's cart, charge the payment
    processor, record the order with copies of the items, and delete the cart
    lines that were priced. The processor is a parameter `pay` that either
    declines or reports the charge id and the amount it captured. */
module Checkout {
  import opened Base
  import opened Schema

  /** What the payment processor answers to a charge request. */
  datatype Payment = Declined(reason: string) | Charged(id: string, amount: int)

  /** The currency every charge is made in. */
  const Currency: string := "USD"

  /** A cart line as createOrder reads it: its id, its quantity and the item it refers to. */
  datatype PricedLine = PricedLine(key: Id, quantity: int, item: Item)

  /** The ids of the caller's cart lines, in ascending order. */
  function CartKeys(s: Store, userId: Id): (r: seq<Id>)
    ensures forall i :: 0 <= i < |r| ==> r[i] in s.cart && s.cart[r[i]].user == userId
    ensures forall k :: k in s.cart && k < s.nextId && s.cart[k].user == userId ==> k in r
    ensures forall i, j :: 0 <= i < j < |r| ==> r[i] < r[j]
  {
    SelectKeys(s.cart, (line: CartItem) => line.user == userId, s.nextId)
  }

  /** The caller's cart with each line's item. A line whose item was deleted
      is dereferenced while pricing and makes the whole call fail. */
  function Snapshot(s: Store, userId: Id): (r: Result<seq<PricedLine>>)
    ensures r.Err? <==> exists k :: k in s.cart && k < s.nextId && s.cart[k].user == userId && s.cart[k].item !in s.items
    ensures r.Err? ==> r.error == MissingItem
    ensures r.Ok? ==> forall i :: 0 <= i < |r.value| ==>
      && r.value[i].key in s.cart
      && s.cart[r.value[i].key].user == userId
      && r.value[i].quantity == s.cart[r.value[i].key].quantity
      && s.cart[r.value[i].key].item in s.items
      && r.value[i].item == s.items[s.cart[r.value[i].key].item]
    ensures r.Ok? ==> forall k :: k in s.cart && k < s.nextId && s.cart[k].user == userId ==>
      exists i :: 0 <= i < |r.value| && r.value[i].key == k
    ensures r.Ok? ==> forall i, j :: 0 <= i < j < |r.value| ==> r.value[i].key < r.value[j].key
  {
    var keys := CartKeys(s, userId);
    if exists i :: 0 <= i < |keys| && s.cart[keys[i]].item !in s.items then Err(MissingItem)
    else
      var lines := seq(|keys|, i requires 0 <= i < |keys| =>
        PricedLine(keys[i], s.cart[keys[i]].quantity, s.items[s.cart[keys[i]].item]));
      assert forall i :: 0 <= i < |keys| ==> lines[i].key == keys[i];
      Ok(lines)
  }

  /** The amount to charge: price times quantity summed over the lines, left
      to right, in integer minor currency units. */
  function Price(lines: seq<PricedLine>): int {
    if |lines| == 0 then 0
    else Price(lines[..|lines| - 1]) + lines[|lines| - 1].item.price * lines[|lines| - 1].quantity
  }

  /** The order line for a cart line: the item's fields and the quantity,
      without the item's id. */
  function OrderLine(line: PricedLine, userId: Id): OrderItem {
    OrderItem(line.item.title, line.item.description, line.item.image, line.item.largeImage,
              line.item.price, line.quantity, userId)
  }

  function OrderLines(lines: seq<PricedLine>, userId: Id): (r: seq<OrderItem>)
    ensures |r| == |lines|
    ensures forall i :: 0 <= i < |r| ==> r[i] == OrderLine(lines[i], userId)
  {
    seq(|lines|, i requires 0 <= i < |lines| => OrderLine(lines[i], userId))
  }

  /** Price times quantity summed over an order's lines. */
  function LinesTotal(items: seq<OrderItem>): int {
    if |items| == 0 then 0
    else LinesTotal(items[..|items| - 1]) + items[|items| - 1].price * items[|items| - 1].quantity
  }

  /** The ids a snapshot covers. */
  function KeysOf(lines: seq<PricedLine>): (r: set<Id>)
    ensures forall k :: k in r <==> exists i :: 0 <= i < |lines| && lines[i].key == k
  {
    set i | 0 <= i < |lines| :: lines[i].key
  }

  /** The charge request createOrder sends for the caller's cart. */
  function ChargeFor(lines: seq<PricedLine>, paymentToken: string): ChargeRequest {
    ChargeRequest(Price(lines), Currency, paymentToken)
  }

  /** Requires a logged-in caller; snapshots the cart, charges its price, and
      only when the charge succeeds records the order (total and charge id as
      the processor reported them) and deletes the snapshotted cart lines. */
  function CreateOrder(s: Store, req: Request, paymentToken: string, pay: ChargeRequest -> Payment): (r: Result<Reply<(Id, Order)>>)
    ensures req.userId.None? ==> r == Err(NotLoggedIn)
    ensures req.userId.Some? && req.userId.value !in s.users ==> r == Err(MissingUser)
    ensures req.userId.Some? && req.userId.value in s.users && Snapshot(s, req.userId.value).Err? ==> r == Err(MissingItem)
    ensures req.userId.Some? && req.userId.value in s.users && Snapshot(s, req.userId.value).Ok?
            && pay(ChargeFor(Snapshot(s, req.userId.value).value, paymentToken)).Declined? ==>
              r == Err(ChargeFailed(pay(ChargeFor(Snapshot(s, req.userId.value).value, paymentToken)).reason))
    ensures r.Ok? <==> (&& req.userId.Some? && req.userId.value in s.users && Snapshot(s, req.userId.value).Ok?
                        && pay(ChargeFor(Snapshot(s, req.userId.value).value, paymentToken)).Charged?)
    ensures r.Ok? ==>
      && req.userId.Some? && req.userId.value in s.users && Snapshot(s, req.userId.value).Ok?
      && var userId := req.userId.value;
         var lines := Snapshot(s, userId).value;
         var payment := pay(ChargeFor(lines, paymentToken));
         var (orderId, order) := r.value.value;
         && payment.Charged?
         && r.value.effects == [Charge(ChargeRequest(Price(lines), Currency, paymentToken))]
         && order.total == payment.amount
         && order.charge == payment.id
         && order.user == userId
         && |order.items| == |lines|
         && (forall i :: 0 <= i < |lines| ==>
               && order.items[i].title == lines[i].item.title
               && order.items[i].description == lines[i].item.description
               && order.items[i].image == lines[i].item.image
               && order.items[i].largeImage == lines[i].item.largeImage
               && order.items[i].price == lines[i].item.price
               && order.items[i].quantity == lines[i].quantity
               && order.items[i].user == userId)
         && orderId == s.nextId
         && r.value.store.orders == s.orders[orderId := order]
         && r.value.store.nextId == s.nextId + 1
         && (forall i :: 0 <= i < |lines| ==> lines[i].key !in r.value.store.cart)
         && (forall k :: k in s.cart && k !in KeysOf(lines) ==> k in r.value.store.cart && r.value.store.cart[k] == s.cart[k])
         && r.value.store.cart.Keys <= s.cart.Keys
         && r.value.store.users == s.users
         && r.value.store.items == s.items
  {
    if req.userId.None? then Err(NotLoggedIn)
    else
      var userId := req.userId.value;
      if userId !in s.users then Err(MissingUser)
      else
        match Snapshot(s, userId)
        case Err(e) => Err(e)
        case Ok(lines) =>
          var request := ChargeFor(lines, paymentToken);
          match pay(request)
          case Declined(reason) => Err(ChargeFailed(reason))
          case Charged(chargeId, amount) =>
            var orderId := s.nextId;
            var order := Order(OrderLines(lines, userId), amount, chargeId, userId);
            var cart' := s.cart - KeysOf(lines);
            Ok(Reply(s.(orders := s.orders[orderId := order], cart := cart', nextId := orderId + 1),
                     (orderId, order), [Charge(request)]))
  }
}

=== FILE: checkout_properties.dfy ===
/** Properties of the checkout workflow that need more than one call's contract:
    the order total against its lines, and the cart after a checkout. */
module CheckoutProperties {
  import opened Base
  import opened Schema
  import opened Checkout

  /** The order lines add up to the price that was charged for the cart lines
      they copy. */
  lemma {:induction false} OrderLinesTotalIsPrice(lines: seq<PricedLine>, userId: Id)
    ensures LinesTotal(OrderLines(lines, userId)) == Price(lines)
    decreases |lines|
  {
    if |lines| > 0 {
      var n := |lines|;
      assert OrderLines(lines, userId)[..n - 1] == OrderLines(lines[..n - 1], userId);
      OrderLinesTotalIsPrice(lines[..n - 1], userId);
    }
  }

  /** The amount sent to the processor is the sum of price times quantity
      over the recorded order's lines; so the order's total agrees with its
      lines exactly when the processor captured the amount requested. */
  lemma OrderLinesSumToChargedAmount(s: Store, req: Request, paymentToken: string, pay: ChargeRequest -> Payment)
    requires CreateOrder(s, req, paymentToken, pay).Ok?
    ensures var reply := CreateOrder(s, req, paymentToken, pay).value;
            && reply.effects == [Charge(ChargeRequest(LinesTotal(reply.value.1.items), Currency, paymentToken))]
            && (reply.value.1.total == LinesTotal(reply.value.1.items) <==>
                  pay(reply.effects[0].request).amount == reply.effects[0].request.amount)
  {
    var userId := req.userId.value;
    var lines := Snapshot(s, userId).value;
    var order := CreateOrder(s, req, paymentToken, pay).value.value.1;
    assert order.items == OrderLines(lines, userId);
    OrderLinesTotalIsPrice(lines, userId);
  }

  /** After a checkout from a valid store the caller has no cart line left,
      and the store is still valid. */
  lemma CreateOrderEmptiesCart(s: Store, req: Request, paymentToken: string, pay: ChargeRequest -> Payment)
    requires ValidStore(s)
    requires CreateOrder(s, req, paymentToken, pay).Ok?
    ensures var s' := CreateOrder(s, req, paymentToken, pay).value.store;
            && (forall k :: k in s'.cart ==> s'.cart[k].user != req.userId.value)
            && ValidStore(s')
  {
    var userId := req.userId.value;
    var lines := Snapshot(s, userId).value;
    var s' := CreateOrder(s, req, paymentToken, pay).value.store;
    forall k | k in s'.cart
      ensures s'.cart[k].user != userId
    {
      if s'.cart[k].user == userId {
        assert false;
      }
    }
    assert forall k :: k in s'.cart ==> k in s.cart && s'.cart[k] == s.cart[k];
  }

  /** A worked pricing example: two of an item at 500 and one at 300 cost 1300. */
  lemma PriceExample(a: Item, b: Item)
    requires a.price == 500 && b.price == 300
    ensures Price([PricedLine(0, 2, a), PricedLine(1, 1, b)]) == 1300
  {
    var lines := [PricedLine(0, 2, a), PricedLine(1, 1, b)];
    assert lines[..1][..0] == [];
    assert Price(lines[..1]) == 1000;
  }
}

=== FILE: credential_properties.dfy ===
/** Properties that relate several account mutations: signing in after
    signing up, the reset-token lifecycle, and the store invariant. */
module CredentialProperties {
  import opened Base
  import opened Schema
  import opened Credentials

  /** Signup keeps the store valid: the new id is fresh and the new email unique. */
  lemma SignupPreservesValidStore(s: Store, email: string, name: string, password: string, hash: string -> string)
    requires ValidStore(s)
    requires Signup(s, email, name, password, hash).Ok?
    ensures ValidStore(Signup(s, email, name, password, hash).value.store)
  {
    var reply := Signup(s, email, name, password, hash).value;
    var id := reply.value.0;
    var users' := reply.store.users;
    forall a, b | a in users' && b in users' && users'[a].email == users'[b].email
      ensures a == b
    {
      if a != b && (a == id || b == id) {
        assert false;
      }
    }
  }

  /** A user who signed up can sign in with the lower-cased email and the same
      password, provided the digest the hash produced matches that password;
      the session cookie is for the new account. */
  lemma SignupThenSignin(s: Store, email: string, name: string, password: string,
                         hash: string -> string, matches: (string, string) -> bool)
    requires ValidStore(s)
    requires matches(password, hash(password))
    requires Signup(s, email, name, password, hash).Ok?
    ensures var signed := Signup(s, email, name, password, hash).value;
            Signin(signed.store, ToLower(email), password, matches)
              == Ok(Reply(signed.store, signed.value, [SessionCookie(signed.value.0)]))
  {
    var signed := Signup(s, email, name, password, hash).value;
    var id := signed.value.0;
    var s' := signed.store;
    SignupPreservesValidStore(s, email, name, password, hash);
    var p := (u: User) => u.email == ToLower(email);
    forall j | j in s'.users && p(s'.users[j])
      ensures j == id
    {
      assert s'.users[j].email == s'.users[id].email;
    }
    FindKeyComplete(s'.users, p, s'.nextId, id);
  }

  /** Signin with a registered email and a password the stored digest does not
      match fails with InvalidPassword and sets no cookie. */
  lemma SigninRejectsWrongPassword(s: Store, email: string, password: string,
                                   matches: (string, string) -> bool, k: Id)
    requires ValidStore(s)
    requires k in s.users && s.users[k].email == email
    requires !matches(password, s.users[k].password)
    ensures Signin(s, email, password, matches) == Err(InvalidPassword)
  {
    var p := (u: User) => u.email == email;
    FindKeyComplete(s.users, p, s.nextId, k);
  }

  /** Requesting a reset keeps the store valid: only one account's token
      and expiry change, and no email. */
  lemma RequestResetPreservesValidStore(s: Store, email: string, resetToken: string, now: int)
    requires ValidStore(s)
    requires RequestReset(s, email, resetToken, now).Ok?
    ensures ValidStore(RequestReset(s, email, resetToken, now).value.store)
  {
    var s' := RequestReset(s, email, resetToken, now).value.store;
    var k :| k in s.users && s.users[k].email == email
             && s' == s.(users := s.users[k := s.users[k].(resetToken := Some(resetToken),
                                                           resetTokenExpiry := Some(now + ResetTokenLifetime))]);
    assert forall j :: j in s'.users ==> s'.users[j].email == s.users[j].email;
  }

  /** Resetting a password keeps the store valid: only one account's
      password, token and expiry change, and no email. */
  lemma ResetPasswordPreservesValidStore(s: Store, resetToken: string, password: string,
                                         confirmPassword: string, now: int, hash: string -> string)
    requires ValidStore(s)
    requires ResetPassword(s, resetToken, password, confirmPassword, now, hash).Ok?
    ensures ValidStore(ResetPassword(s, resetToken, password, confirmPassword, now, hash).value.store)
  {
    var s' := ResetPassword(s, resetToken, password, confirmPassword, now, hash).value.store;
    assert forall j :: j in s'.users ==> s'.users[j].email == s.users[j].email;
  }

  /** A freshly issued reset token is accepted exactly up to two hours after
      it was issued: it expires one hour after issue, and the reset accepts
      expiries up to one hour in the past. */
  lemma ResetAcceptedWithinTwoHours(s: Store, email: string, resetToken: string, issuedAt: int,
                                    now: int, password: string, hash: string -> string)
    requires ValidStore(s)
    requires forall k :: k in s.users ==> s.users[k].resetToken != Some(resetToken)
    requires RequestReset(s, email, resetToken, issuedAt).Ok?
    ensures ResetPassword(RequestReset(s, email, resetToken, issuedAt).value.store, resetToken, password, password, now, hash).Ok?
            <==> now <= issuedAt + 2 * ResetTokenLifetime
  {
    var s' := RequestReset(s, email, resetToken, issuedAt).value.store;
    var k :| k in s.users && s.users[k].email == email
             && s' == s.(users := s.users[k := s.users[k].(resetToken := Some(resetToken),
                                                           resetTokenExpiry := Some(issuedAt + ResetTokenLifetime))]);
    assert k < s'.nextId;
    forall j | j in s'.users && j != k
      ensures !AcceptsToken(s'.users[j], resetToken, now)
    {
      assert s'.users[j] == s.users[j];
    }
    if now <= issuedAt + 2 * ResetTokenLifetime {
      assert AcceptsToken(s'.users[k], resetToken, now);
    } else {
      assert !AcceptsToken(s'.users[k], resetToken, now);
    }
  }

  /** A reset token works once: after a successful reset no account holds it,
      so presenting it again fails, whatever the passwords and the time. */
  lemma ResetTokenSingleUse(s: Store, resetToken: string, password: string, now: int, hash: string -> string,
                            password2: string, confirm2: string, now2: int, hash2: string -> string)
    requires forall a, b :: (&& a in s.users && b in s.users
                             && s.users[a].resetToken == Some(resetToken)
                             && s.users[b].resetToken == Some(resetToken)) ==> a == b
    requires ResetPassword(s, resetToken, password, password, now, hash).Ok?
    ensures ResetPassword(ResetPassword(s, resetToken, password, password, now, hash).value.store,
                          resetToken, password2, confirm2, now2, hash2).Err?
  {
    var reply := ResetPassword(s, resetToken, password, password, now, hash).value;
    var id := reply.value.0;
    var s' := reply.store;
    forall j | j in s'.users
      ensures !AcceptsToken(s'.users[j], resetToken, now2)
    {
      if j != id {
        assert s'.users[j] == s.users[j];
      }
    }
  }

  /** Updating permissions keeps the store valid: no email and no id changes. */
  lemma UpdatePermissionsPreservesValidStore(s: Store, req: Request, target: Id, permissions: seq<Permission>)
    requires ValidStore(s)
    requires UpdatePermissions(s, req, target, permissions).Ok?
    ensures ValidStore(UpdatePermissions(s, req, target, permissions).value.store)
  {
  }

  /** Granting PERMISSIONUPDATE delegates the authority: the target can then
      set any user's permissions, including taking back the actor's own. */
  lemma GrantedUpdaterCanUpdate(s: Store, req: Request, target: Id, permissions: seq<Permission>,
                                other: Id, permissions2: seq<Permission>, req2: Request)
    requires UpdatePermissions(s, req, target, permissions).Ok?
    requires PERMISSIONUPDATE in permissions
    requires other in s.users && req2.userId == Some(target)
    ensures UpdatePermissions(UpdatePermissions(s, req, target, permissions).value.store, req2, other, permissions2).Ok?
  {
  }

  /** The update replaces rather than merges: applying it twice gives the
      same store as applying it once, and a second update with another list
      leaves no trace of the first. The actor is someone other than the
      target, since an update of one's own list may revoke the right to
      repeat it. */
  lemma UpdatePermissionsReplaces(s: Store, req: Request, target: Id, permissions: seq<Permission>,
                                  permissions2: seq<Permission>)
    requires UpdatePermissions(s, req, target, permissions).Ok?
    requires req.userId != Some(target)
    ensures var once := UpdatePermissions(s, req, target, permissions).value.store;
            && UpdatePermissions(once, req, target, permissions).Ok?
            && UpdatePermissions(once, req, target, permissions).value.store == once
            && UpdatePermissions(once, req, target, permissions2).Ok?
            && UpdatePermissions(once, req, target, permissions2).value.store
                 == UpdatePermissions(s, req, target, permissions2).value.store
  {
    var once := UpdatePermissions(s, req, target, permissions).value.store;
    assert once.users[req.userId.value] == s.users[req.userId.value];
  }
}

=== FILE: credentials.dfy ===
/** Account mutations: signup, signin, signout, the password-reset pair and
    updatePermissions. Password hashing is a parameter (`hash` produces a
    digest, `matches` compares a clear-text password with a digest); the clock
    (`now`, milliseconds) and the random reset token are parameters too. */
module Credentials {
  import opened Base
  import opened Schema
  import opened Guards

  /** Milliseconds a reset token is issued for: one hour. */
  const ResetTokenLifetime: int := 3600000

  predicate IsUpper(c: char) {
    'A' <= c <= 'Z'
  }

  function LowerChar(c: char): char {
    if IsUpper(c) then (c as int + 32) as char else c
  }

  predicate IsLowerCase(s: string) {
    forall i :: 0 <= i < |s| ==> !IsUpper(s[i])
  }

  /** String lower-casing, on the ASCII letters. */
  function ToLower(s: string): (r: string)
    ensures |r| == |s|
    ensures IsLowerCase(r)
    ensures forall i :: 0 <= i < |s| && !IsUpper(s[i]) ==> r[i] == s[i]
    ensures forall i :: 0 <= i < |s| && IsUpper(s[i]) ==> r[i] as int == s[i] as int + 32
  {
    seq(|s|, i requires 0 <= i < |s| => LowerChar(s[i]))
  }

  /** Lower-casing an already lower-case string changes nothing, so applying it twice is applying it once. */
  lemma ToLowerIdempotent(s: string)
    ensures IsLowerCase(s) ==> ToLower(s) == s
    ensures ToLower(ToLower(s)) == ToLower(s)
  {
  }

  /** Creates the account with the lower-cased email, the hashed password and
      the permissions exactly [USER], then sets the session cookie. The email
      is a unique field, so creating a second account with it fails. */
  function Signup(s: Store, email: string, name: string, password: string, hash: string -> string): (r: Result<Reply<(Id, User)>>)
    ensures r.Err? <==> exists k :: k in s.users && k < s.nextId && s.users[k].email == ToLower(email)
    ensures r.Err? ==> r.error == EmailTaken
    ensures r.Ok? ==>
      && r.value.value.0 == s.nextId
      && r.value.value.1.email == ToLower(email)
      && IsLowerCase(r.value.value.1.email)
      && r.value.value.1.name == name
      && r.value.value.1.password == hash(password)
      && r.value.value.1.permissions == [USER]
      && r.value.value.1.resetToken.None? && r.value.value.1.resetTokenExpiry.None?
      && r.value.store.users == s.users[r.value.value.0 := r.value.value.1]
      && r.value.store.nextId == s.nextId + 1
      && r.value.store.(users := s.users, nextId := s.nextId) == s
      && r.value.effects == [SessionCookie(r.value.value.0)]
  {
    var lowered := ToLower(email);
    if FindKey(s.users, (u: User) => u.email == lowered, s.nextId).Some? then Err(EmailTaken)
    else
      var id := s.nextId;
      var user := User(name, lowered, hash(password), [USER], None, None);
      Ok(Reply(s.(users := s.users[id := user], nextId := id + 1), (id, user), [SessionCookie(id)]))
  }

  /** Looks the email up as given (it is not lower-cased here), compares the
      password, and only when both checks pass sets the session cookie. */
  function Signin(s: Store, email: string, password: string, matches: (string, string) -> bool): (r: Result<Reply<(Id, User)>>)
    ensures (forall k :: k in s.users && k < s.nextId ==> s.users[k].email != email) <==> r == Err(NoSuchUser)
    ensures r.Err? ==> r.error == NoSuchUser || r.error == InvalidPassword
    ensures r == Err(InvalidPassword) ==>
      exists k :: k in s.users && s.users[k].email == email && !matches(password, s.users[k].password)
    ensures r.Ok? ==>
      && r.value.value.0 in s.users
      && s.users[r.value.value.0] == r.value.value.1
      && r.value.value.1.email == email
      && matches(password, r.value.value.1.password)
      && r.value.store == s
      && r.value.effects == [SessionCookie(r.value.value.0)]
  {
    match FindKey(s.users, (u: User) => u.email == email, s.nextId)
    case None => Err(NoSuchUser)
    case Some(id) =>
      var user := s.users[id];
      if !matches(password, user.password) then Err(InvalidPassword)
      else Ok(Reply(s, (id, user), [SessionCookie(id)]))
  }

  /** Clears the session cookie; the store is not touched. */
  function Signout(s: Store): (r: Reply<string>)
    ensures r.store == s
    ensures r.effects == [ClearCookie]
  {
    Reply(s, "Goodbye!", [ClearCookie])
  }

  /** Signing out again has exactly the same outcome: signout is idempotent. */
  lemma SignoutIdempotent(s: Store)
    ensures Signout(Signout(s).store) == Signout(s)
  {
  }

  /** Stores a fresh reset token with an expiry one hour from now on the
      account with this email (looked up as given) and mails the token. */
  function RequestReset(s: Store, email: string, resetToken: string, now: int): (r: Result<Reply<string>>)
    ensures r.Err? <==> forall k :: k in s.users && k < s.nextId ==> s.users[k].email != email
    ensures r.Err? ==> r.error == NoSuchUser
    ensures r.Ok? ==> exists k :: (
      && k in s.users && s.users[k].email == email
      && r.value.store == s.(users := s.users[k := s.users[k].(resetToken := Some(resetToken),
                                                             resetTokenExpiry := Some(now + ResetTokenLifetime))]))
    ensures r.Ok? ==> r.value.effects == [SendResetMail(email, resetToken)]
  {
    match FindKey(s.users, (u: User) => u.email == email, s.nextId)
    case None => Err(NoSuchUser)
    case Some(id) =>
      var user := s.users[id];
      var updated := user.(resetToken := Some(resetToken), resetTokenExpiry := Some(now + ResetTokenLifetime));
      Ok(Reply(s.(users := s.users[id := updated]), "Thanks!", [SendResetMail(user.email, resetToken)]))
  }

  /** The reset query's filter: the token matches and its expiry is at most
      one hour in the past. */
  predicate AcceptsToken(u: User, resetToken: string, now: int) {
    && u.resetToken == Some(resetToken)
    && u.resetTokenExpiry.Some?
    && u.resetTokenExpiry.value >= now - ResetTokenLifetime
  }

  /** Compares the two passwords before any lookup, then finds an account
      whose reset token is accepted, stores the new hash, clears the token and
      its expiry, and sets the session cookie. The account is updated through
      its email, which is unique; here it is addressed by its id directly. */
  function ResetPassword(s: Store, resetToken: string, password: string, confirmPassword: string, now: int,
                         hash: string -> string): (r: Result<Reply<(Id, User)>>)
    ensures password != confirmPassword ==> r == Err(PasswordMismatch)
    ensures password == confirmPassword ==>
      (r.Err? <==> forall k :: k in s.users && k < s.nextId ==> !AcceptsToken(s.users[k], resetToken, now))
    ensures password == confirmPassword && r.Err? ==> r.error == InvalidOrExpiredToken
    ensures r.Ok? ==>
      && r.value.value.0 in s.users
      && AcceptsToken(s.users[r.value.value.0], resetToken, now)
      && r.value.value.1.password == hash(password)
      && r.value.value.1.resetToken.None?
      && r.value.value.1.resetTokenExpiry.None?
      && r.value.value.1.(password := s.users[r.value.value.0].password,
                          resetToken := s.users[r.value.value.0].resetToken,
                          resetTokenExpiry := s.users[r.value.value.0].resetTokenExpiry) == s.users[r.value.value.0]
      && r.value.store == s.(users := s.users[r.value.value.0 := r.value.value.1])
      && r.value.effects == [SessionCookie(r.value.value.0)]
  {
    if password != confirmPassword then Err(PasswordMismatch)
    else
      match FindKey(s.users, (u: User) => AcceptsToken(u, resetToken, now), s.nextId)
      case None => Err(InvalidOrExpiredToken)
      case Some(id) =>
        var updated := s.users[id].(password := hash(password), resetToken := None, resetTokenExpiry := None);
        Ok(Reply(s.(users := s.users[id := updated]), (id, updated), [SessionCookie(id)]))
  }

  /** Requires a logged-in caller whose stored record holds ADMIN or
      PERMISSIONUPDATE, then replaces the target's permission list with the
      given one (a replacement, not a merge). */
  function UpdatePermissions(s: Store, req: Request, target: Id, permissions: seq<Permission>): (r: Result<Reply<(Id, User)>>)
    ensures req.userId.None? ==> r == Err(NotLoggedIn)
    ensures req.userId.Some? && req.userId.value !in s.users ==> r == Err(MissingUser)
    ensures (&& req.userId.Some? && req.userId.value in s.users
             && ADMIN !in s.users[req.userId.value].permissions
             && PERMISSIONUPDATE !in s.users[req.userId.value].permissions) ==> r == Err(NoPermission)
    ensures (&& req.userId.Some? && req.userId.value in s.users
             && (ADMIN in s.users[req.userId.value].permissions || PERMISSIONUPDATE in s.users[req.userId.value].permissions)
             && target !in s.users) ==> r == Err(NotFound)
    ensures r.Ok? <==> (&& req.userId.Some? && req.userId.value in s.users
                        && (ADMIN in s.users[req.userId.value].permissions || PERMISSIONUPDATE in s.users[req.userId.value].permissions)
                        && target in s.users)
    ensures r.Ok? ==>
      && req.userId.Some? && req.userId.value in s.users
      && (ADMIN in s.users[req.userId.value].permissions || PERMISSIONUPDATE in s.users[req.userId.value].permissions)
      && target in s.users && target in r.value.store.users
      && r.value.value == (target, r.value.store.users[target])
      && r.value.store.users[target].permissions == permissions
      && r.value.store.users[target].(permissions := s.users[target].permissions) == s.users[target]
      && r.value.store.users.Keys == s.users.Keys
      && (forall k :: k in s.users && k != target ==> r.value.store.users[k] == s.users[k])
      && r.value.store.(users := s.users) == s
      && r.value.effects == []
  {
    if req.userId.None? then Err(NotLoggedIn)
    else if req.userId.value !in s.users then Err(MissingUser)
    else
      match HasPermission(s.users[req.userId.value].permissions, [ADMIN, PERMISSIONUPDATE])
      case Err(e) => Err(e)
      case Ok(_) =>
        if target !in s.users then Err(NotFound)
        else
          var updated := s.users[target].(permissions := permissions);
          Ok(Reply(s.(users := s.users[target := updated]), (target, updated), []))
  }
}

=== FILE: guards.dfy ===
/** The authorization checks the resolvers apply: the permission check shared
    by several resolvers, and the two inline guards of deleteItem and of the
    order query, each as the code combines its conditions. */
module Guards {
  import opened Base
  import opened Schema

  /** True when some held permission is one of the required ones. */
  predicate HoldsAny(held: seq<Permission>, required: seq<Permission>) {
    exists p :: p in held && p in required
  }

  /** hasPermission of the utils module is not part of this model. Assumption,
      based on its two call sites (src/resolvers/Mutation.js:173 and
      src/resolvers/Query.js:23), which ignore its return value and rely on it
      to stop the resolver: it throws unless the user's permissions intersect
      the required list. */
  function HasPermission(held: seq<Permission>, required: seq<Permission>): (r: Result<()>)
    ensures r.Ok? <==> exists i, j :: 0 <= i < |held| && 0 <= j < |required| && held[i] == required[j]
    ensures r.Err? ==> r.error == NoPermission
  {
    if HoldsAny(held, required) then Ok(())
    else
      assert forall i | 0 <= i < |held| :: held[i] in held;
      Err(NoPermission)
  }

  /** deleteItem's guard as the code combines it: `!ownsItem && hasPermissions`
      throws, so only a non-owner who holds ADMIN or ITEMDELETE is stopped. */
  function DeleteItemGuard(ownsItem: bool, held: seq<Permission>): (r: Result<()>)
    ensures r.Err? <==> !ownsItem && (ADMIN in held || ITEMDELETE in held)
    ensures r.Err? ==> r.error == NoPermission
  {
    if !ownsItem && HoldsAny(held, [ADMIN, ITEMDELETE]) then Err(NoPermission) else Ok(())
  }

  /** The owner-or-permission policy for deleting an item, which the guard
      evidently means to enforce: the owner, or anybody holding ADMIN or
      ITEMDELETE. */
  predicate MayDeleteItem(ownsItem: bool, held: seq<Permission>) {
    ownsItem || ADMIN in held || ITEMDELETE in held
  }

  /** The owner of an item always passes the guard, and so does a non-owner
      who holds neither ADMIN nor ITEMDELETE. */
  lemma DeleteItemGuardAdmits(ownsItem: bool, held: seq<Permission>)
    requires ownsItem || (ADMIN !in held && ITEMDELETE !in held)
    ensures DeleteItemGuard(ownsItem, held).Ok?
  {
  }

  /** For owners the guard agrees with the intended policy; for every
      non-owner its verdict is the opposite of the intended one. */
  lemma DeleteItemGuardInverted(ownsItem: bool, held: seq<Permission>)
    ensures ownsItem ==> DeleteItemGuard(ownsItem, held).Ok? && MayDeleteItem(ownsItem, held)
    ensures !ownsItem ==> (DeleteItemGuard(ownsItem, held).Ok? <==> !MayDeleteItem(ownsItem, held))
  {
  }

  /** The order query's guard as written: `!ownsOrder || !hasPermission`,
      where `hasPermission` names the imported helper function, which is
      always truthy, so the second disjunct is always false. The local flag
      `hasPermissionToSeeOrder` (here `seesAllOrders`) is computed and never used. */
  function OrderGuard(ownsOrder: bool, seesAllOrders: bool): (r: Result<()>)
    ensures r.Err? <==> !ownsOrder
    ensures r.Err? ==> r.error == CannotSeeOrder
  {
    var helperIsTruthy := true;
    if !ownsOrder || !helperIsTruthy then Err(CannotSeeOrder) else Ok(())
  }

  /** The owner-or-ADMIN policy for reading an order, which the guard's
      unused local flag evidently means to enforce. */
  predicate MaySeeOrder(ownsOrder: bool, seesAllOrders: bool) {
    ownsOrder || seesAllOrders
  }

  /** The order guard reduces to ownership: the owner is admitted whatever
      the permissions, a non-owner ADMIN is rejected, and the guard is
      stricter than the intended policy. */
  lemma OrderGuardIsOwnership(ownsOrder: bool, seesAllOrders: bool)
    ensures OrderGuard(ownsOrder, seesAllOrders) == OrderGuard(ownsOrder, !seesAllOrders)
    ensures ownsOrder ==> OrderGuard(ownsOrder, seesAllOrders).Ok?
    ensures !ownsOrder && seesAllOrders ==> OrderGuard(ownsOrder, seesAllOrders).Err? && MaySeeOrder(ownsOrder, seesAllOrders)
    ensures OrderGuard(ownsOrder, seesAllOrders).Ok? ==> MaySeeOrder(ownsOrder, seesAllOrders)
  {
  }
}

=== FILE: items.dfy ===
/** The deleteItem mutation: the only item resolver with logic of its own. */
module Items {
  import opened Base
  import opened Schema
  import opened Guards

  /** Reads the item (a missing one is dereferenced and throws), reads the
      caller's permissions from the request (an anonymous request throws
      there), applies the guard as written and deletes the item. */
  function DeleteItem(s: Store, req: Request, itemId: Id): (r: Result<Reply<Item>>)
    ensures itemId !in s.items ==> r == Err(NotFound)
    ensures itemId in s.items && req.user.None? ==> r == Err(MissingUser)
    ensures itemId in s.items && req.user.Some? ==>
      (r.Err? <==> req.userId != Some(s.items[itemId].owner)
                   && (ADMIN in req.user.value.permissions || ITEMDELETE in req.user.value.permissions))
    ensures r.Ok? ==>
      && itemId in s.items
      && r.value.value == s.items[itemId]
      && r.value.store.items.Keys == s.items.Keys - {itemId}
      && (forall k :: k in r.value.store.items ==> r.value.store.items[k] == s.items[k])
      && r.value.store.(items := s.items) == s
      && r.value.effects == []
  {
    if itemId !in s.items then Err(NotFound)
    else
      var item := s.items[itemId];
      var ownsItem := req.userId == Some(item.owner);
      if req.user.None? then Err(MissingUser)
      else
        match DeleteItemGuard(ownsItem, req.user.value.permissions)
        case Err(e) => Err(e)
        case Ok(_) => Ok(Reply(s.(items := s.items - {itemId}), item, []))
  }

  /** The owner of an item may always delete it, whatever the permissions. */
  lemma OwnerDeletesItem(s: Store, req: Request, itemId: Id)
    requires itemId in s.items && req.user.Some?
    requires req.userId == Some(s.items[itemId].owner)
    ensures DeleteItem(s, req, itemId).Ok?
    ensures itemId !in DeleteItem(s, req, itemId).value.store.items
  {
  }

  /** As written, a logged-in user who owns nothing and holds no permission
      can delete somebody else's item, while an ADMIN cannot. */
  lemma StrangerDeletesItem(s: Store, req: Request, itemId: Id)
    requires itemId in s.items && req.user.Some?
    requires req.userId != Some(s.items[itemId].owner)
    ensures req.user.value.permissions == [] ==> DeleteItem(s, req, itemId).Ok?
    ensures ADMIN in req.user.value.permissions ==> DeleteItem(s, req, itemId) == Err(NoPermission)
  {
  }
}

=== FILE: queries.dfy ===
/** The query resolvers with access rules: me, users, order and orders. None of
    them writes the store or has a side effect. */
module Queries {
  import opened Base
  import opened Schema
  import opened Guards
  import opened Credentials

  /** The records stored under `keys`, paired with their ids. */
  function Rows<V>(m: map<Id, V>, keys: seq<Id>): (r: seq<(Id, V)>)
    requires forall i :: 0 <= i < |keys| ==> keys[i] in m
    ensures |r| == |keys|
    ensures forall i :: 0 <= i < |r| ==> r[i].0 == keys[i] && r[i].1 == m[keys[i]]
  {
    seq(|keys|, i requires 0 <= i < |keys| => (keys[i], m[keys[i]]))
  }

  /** The caller's own record; null (None) for an anonymous request or an
      unknown id. Never fails. */
  function Me(s: Store, req: Request): (r: Result<Reply<Option<User>>>)
    ensures r.Ok? && r.value.store == s && r.value.effects == []
    ensures req.userId.None? ==> r.value.value.None?
    ensures r.value.value.Some? <==> req.userId.Some? && req.userId.value in s.users
    ensures r.value.value.Some? ==> r.value.value.value == s.users[req.userId.value]
  {
    if req.userId.None? then Ok(Reply(s, None, []))
    else if req.userId.value in s.users then Ok(Reply(s, Some(s.users[req.userId.value]), []))
    else Ok(Reply(s, None, []))
  }

  /** Every user, for a logged-in caller whose request record holds ADMIN or
      PERMISSIONUPDATE. */
  function Users(s: Store, req: Request): (r: Result<Reply<seq<(Id, User)>>>)
    ensures req.userId.None? ==> r == Err(NotLoggedIn)
    ensures req.userId.Some? && req.user.None? ==> r == Err(MissingUser)
    ensures req.userId.Some? && req.user.Some? ==>
      (r.Ok? <==> ADMIN in req.user.value.permissions || PERMISSIONUPDATE in req.user.value.permissions)
    ensures r.Err? ==> r.error in {NotLoggedIn, MissingUser, NoPermission}
    ensures r.Ok? ==>
      && r.value.store == s && r.value.effects == []
      && (forall i :: 0 <= i < |r.value.value| ==> r.value.value[i].0 in s.users && s.users[r.value.value[i].0] == r.value.value[i].1)
      && (forall k :: k in s.users && k < s.nextId ==> exists i :: 0 <= i < |r.value.value| && r.value.value[i] == (k, s.users[k]))
      && (forall i, j :: 0 <= i < j < |r.value.value| ==> r.value.value[i].0 < r.value.value[j].0)
  {
    if req.userId.None? then Err(NotLoggedIn)
    else if req.user.None? then Err(MissingUser)
    else
      match HasPermission(req.user.value.permissions, [ADMIN, PERMISSIONUPDATE])
      case Err(e) => Err(e)
      case Ok(_) =>
        var keys := SelectKeys(s.users, (u: User) => true, s.nextId);
        var rows := Rows(s.users, keys);
        assert forall k :: k in keys ==> exists i :: 0 <= i < |rows| && rows[i] == (k, s.users[k]);
        Ok(Reply(s, rows, []))
  }

  /** One order, for a logged-in caller. A missing order and a request
      without a user record are dereferenced and fail; then the guard as
      written admits the owner and nobody else. */
  function OrderQuery(s: Store, req: Request, orderId: Id): (r: Result<Reply<Order>>)
    ensures req.userId.None? ==> r == Err(NotLoggedIn)
    ensures req.userId.Some? && orderId !in s.orders ==> r == Err(NotFound)
    ensures req.userId.Some? && orderId in s.orders && req.user.None? ==> r == Err(MissingUser)
    ensures req.userId.Some? && orderId in s.orders && req.user.Some? ==>
      (r.Ok? <==> s.orders[orderId].user == req.userId.value)
    ensures r.Err? ==> r.error in {NotLoggedIn, NotFound, MissingUser, CannotSeeOrder}
    ensures r.Ok? ==> orderId in s.orders && r.value.value == s.orders[orderId] && r.value.store == s && r.value.effects == []
  {
    if req.userId.None? then Err(NotLoggedIn)
    else if orderId !in s.orders then Err(NotFound)
    else
      var order := s.orders[orderId];
      var ownsOrder := order.user == req.userId.value;
      if req.user.None? then Err(MissingUser)
      else
        var seesAllOrders := ADMIN in req.user.value.permissions;
        match OrderGuard(ownsOrder, seesAllOrders)
        case Err(e) => Err(e)
        case Ok(_) => Ok(Reply(s, order, []))
  }

  /** The caller's orders, and only those. */
  function Orders(s: Store, req: Request): (r: Result<Reply<seq<(Id, Order)>>>)
    ensures r.Err? <==> req.userId.None?
    ensures r.Err? ==> r.error == NotLoggedIn
    ensures r.Ok? ==>
      && r.value.store == s && r.value.effects == []
      && (forall i :: 0 <= i < |r.value.value| ==>
            && r.value.value[i].0 in s.orders
            && s.orders[r.value.value[i].0] == r.value.value[i].1
            && r.value.value[i].1.user == req.userId.value)
      && (forall k :: k in s.orders && k < s.nextId && s.orders[k].user == req.userId.value ==>
            exists i :: 0 <= i < |r.value.value| && r.value.value[i] == (k, s.orders[k]))
      && (forall i, j :: 0 <= i < j < |r.value.value| ==> r.value.value[i].0 < r.value.value[j].0)
  {
    if req.userId.None? then Err(NotLoggedIn)
    else
      var userId := req.userId.value;
      var keys := SelectKeys(s.orders, (o: Order) => o.user == userId, s.nextId);
      var rows := Rows(s.orders, keys);
      assert forall k :: k in keys ==> exists i :: 0 <= i < |rows| && rows[i] == (k, s.orders[k]);
      Ok(Reply(s, rows, []))
  }

  /** As written, an ADMIN cannot read somebody else's order, while the owner
      can read their own whatever their permissions. */
  lemma OrderQueryIsOwnerOnly(s: Store, req: Request, orderId: Id)
    requires req.userId.Some? && req.user.Some? && orderId in s.orders
    ensures s.orders[orderId].user == req.userId.value ==> OrderQuery(s, req, orderId).Ok?
    ensures s.orders[orderId].user != req.userId.value && ADMIN in req.user.value.permissions ==>
              OrderQuery(s, req, orderId) == Err(CannotSeeOrder)
  {
    OrderGuardIsOwnership(s.orders[orderId].user == req.userId.value, ADMIN in req.user.value.permissions);
  }

  /** The session signup starts names the new account: `me`, asked with the
      id the cookie carries, returns exactly the record signup stored. */
  lemma MeAfterSignup(s: Store, email: string, name: string, password: string,
                      hash: string -> string, viewer: Option<Viewer>)
    requires Signup(s, email, name, password, hash).Ok?
    ensures var signed := Signup(s, email, name, password, hash).value;
            && signed.effects == [SetCookie(Jwt(signed.value.0), CookieMaxAge)]
            && Me(signed.store, Request(Some(signed.effects[0].token.userId), viewer)).value.value
                 == Some(signed.value.1)
  {
  }
}

=== FILE: schema.dfy ===
/** The persisted data the resolvers read and write, the request context the
    server builds for them, and the lookups they issue against the store. */
module Schema {
  import opened Base

  /** The roles the resolvers test for; any other role of the data model is `Other`. */
  datatype Permission = ADMIN | USER | ITEMDELETE | PERMISSIONUPDATE | Other(name: string)

  /** A registered account. `password` holds the hash, never the clear text. */
  datatype User = User(
    name: string,
    email: string,
    password: string,
    permissions: seq<Permission>,
    resetToken: Option<string>,
    resetTokenExpiry: Option<int>)

  datatype Item = Item(
    title: string,
    description: string,
    image: string,
    largeImage: string,
    price: int,
    owner: Id)

  /** One (user, item, quantity) entry of a shopping cart. */
  datatype CartItem = CartItem(quantity: int, item: Id, user: Id)

  /** A copy of an item's fields taken when the order is placed; it has no id of its own item. */
  datatype OrderItem = OrderItem(
    title: string,
    description: string,
    image: string,
    largeImage: string,
    price: int,
    quantity: int,
    user: Id)

  datatype Order = Order(items: seq<OrderItem>, total: int, charge: string, user: Id)

  /** Every table is a map from id to record; `nextId` is the id the next
      created record receives. */
  datatype Store = Store(
    users: map<Id, User>,
    items: map<Id, Item>,
    cart: map<Id, CartItem>,
    orders: map<Id, Order>,
    nextId: Id)

  /** What the request middleware attaches: the id decoded from the session
      cookie, and the permissions of the user record fetched for that id. The
      middleware fetches a record only when it decoded an id, so `user` is
      Some only when `userId` is. No resolver here relies on that pairing:
      each outcome is stated for every combination of the two fields. */
  datatype Viewer = Viewer(permissions: seq<Permission>)
  datatype Request = Request(userId: Option<Id>, user: Option<Viewer>)

  /** The signed session token; its payload is the user id. */
  datatype Token = Jwt(userId: Id)

  /** What is sent to the payment processor. */
  datatype ChargeRequest = ChargeRequest(amount: int, currency: string, source: string)

  /** Side effects a resolver has besides writing the store. */
  datatype Effect =
    | SetCookie(token: Token, maxAge: int)
    | ClearCookie
    | SendResetMail(to: string, resetToken: string)
    | Charge(request: ChargeRequest)

  /** A successful resolver call: the store afterwards, the value returned to
      the client, and the side effects in the order they happen. */
  datatype Reply<T> = Reply(store: Store, value: T, effects: seq<Effect>)

  /** Lifetime of the session cookie in milliseconds: 365 days. */
  const CookieMaxAge: int := 1000 * 60 * 60 * 24 * 365

  /** The session cookie signup, signin and resetPassword set for a user. */
  function SessionCookie(id: Id): Effect {
    SetCookie(Jwt(id), CookieMaxAge)
  }

  /** The lowest key below `bound` whose record satisfies `p`: a single-record
      query by filter. */
  function FindKey<V>(m: map<Id, V>, p: V -> bool, bound: nat): (r: Option<Id>)
    ensures r.Some? ==> r.value < bound && r.value in m && p(m[r.value])
    ensures r.Some? ==> forall k :: k in m && k < r.value ==> !p(m[k])
    ensures r.None? ==> forall k :: k in m && k < bound ==> !p(m[k])
    decreases bound
  {
    if bound == 0 then None
    else
      var below := FindKey(m, p, bound - 1);
      if below.Some? then below
      else if bound - 1 in m && p(m[bound - 1]) then Some(bound - 1)
      else None
  }

  /** All keys below `bound` whose records satisfy `p`, in ascending order: a
      list query by filter. */
  function SelectKeys<V>(m: map<Id, V>, p: V -> bool, bound: nat): (r: seq<Id>)
    ensures forall i :: 0 <= i < |r| ==> r[i] in m && r[i] < bound && p(m[r[i]])
    ensures forall k :: k in m && k < bound && p(m[k]) ==> k in r
    ensures forall i, j :: 0 <= i < j < |r| ==> r[i] < r[j]
    decreases bound
  {
    if bound == 0 then []
    else
      var below := SelectKeys(m, p, bound - 1);
      if bound - 1 in m && p(m[bound - 1]) then below + [bound - 1] else below
  }

  predicate KeysBelow<V>(m: map<Id, V>, bound: nat) {
    forall k :: k in m ==> k < bound
  }

  predicate UniqueEmails(users: map<Id, User>) {
    forall a, b :: a in users && b in users && users[a].email == users[b].email ==> a == b
  }

  /** At most one cart line per (user, item) pair. */
  predicate UniqueCartLines(cart: map<Id, CartItem>) {
    forall a, b :: a in cart && b in cart && cart[a].user == cart[b].user && cart[a].item == cart[b].item ==> a == b
  }

  /** The store invariant: every id was allocated before `nextId` and emails
      are unique, which the database enforces; and the cart holds at most one
      line with a positive quantity per (user, item) pair, which addToCart's
      upsert maintains for requests that run one at a time. */
  predicate ValidStore(s: Store) {
    && KeysBelow(s.users, s.nextId)
    && KeysBelow(s.items, s.nextId)
    && KeysBelow(s.cart, s.nextId)
    && KeysBelow(s.orders, s.nextId)
    && UniqueEmails(s.users)
    && UniqueCartLines(s.cart)
    && (forall k :: k in s.cart ==> s.cart[k].quantity >= 1)
  }

  /** In a valid store a single-record query finds a record exactly when one
      matches, and when only one can match it finds that one. */
  lemma FindKeyComplete<V>(m: map<Id, V>, p: V -> bool, bound: nat, k: Id)
    requires KeysBelow(m, bound)
    requires k in m && p(m[k])
    requires forall j :: j in m && p(m[j]) ==> j == k
    ensures FindKey(m, p, bound) == Some(k)
  {
  }
}
